=== FILE: README.md ===
# Saved views of Nautobot, modelled in Dafny

Nautobot lets a user store the state of a list page as a named **saved view**. The saved state is the filters, the sort order, the page size and the table's column layout. It lives in a JSON `config` document, keyed by the list view's name (for example `dcim:device_list`). A user can also pick one saved view per list view as a personal default; a `UserSavedViewAssociation` row records that choice. This project models the request handlers of `SavedViewUIViewSet` in `nautobot/users/views.py` as pure functions over an immutable store. It also models the preference-deletion handler of `UserConfigView`.

- `Records` holds the entities. The store is a map from primary key to `SavedView`, plus the sequence of association rows. A user is an id plus the set of permission names `has_perms` grants. Every handler returns a `Reply`: the store after the request and a status (`Done`, `AwaitingConfirmation` or `Failed(reason)`).
- `Associations` models the ORM row filter `filter(user=…, view_name=…)` of `set_default` as `Select`, together with its algebra (append, idempotence, commutation). The same `Select`, by referenced saved view, models the assumed cascade of a deletion (see "## Left out").
- `Invariants` defines the store's consistency: `(owner, view, name)` is unique, there is at most one association per `(user, view_name)`, and every association names an existing saved view of the same view.
- `Visibility` (`alter_queryset`, `list`), `Defaults` (`set_default`), `ConfigUpdate` (`update_saved_view_config`), `Creation` (`create`), `Deletion` (`destroy`) and `Preferences` (`UserConfigView.post`) model the handlers.

The views consult external collaborators. They are parameters, gathered in `Records.Env`:
- the list view's `non_filter_params`;
- `get_table_class_string_from_view_name`;
- whether `reverse(view_name)` succeeds;
- `PAGINATE_COUNT`;
- `int()`, which is partial;
- the user's stored table layout;
- the model validation run by `validated_save`.

The object-permission restriction `restrict(user, "view")` is a predicate argument of `VisibleTo`. A newly inserted record gets its primary key from the caller (`newId`, required fresh).

Query strings are `map<string, seq<string>>`. The two handlers read them differently, and the model keeps the difference:
- `update_saved_view_config` reads the request's query dictionary, whose `get` returns the **last** value of a key (`Values.Last`).
- `create` parses its `params` field with `parse_qs` and keeps the **first** value of each single-valued key (`Values.First`, `Creation.Coerce`).

## Model

| member | source | states |
|---|---|---|
| `Visibility.VisibleTo` | nautobot/users/views.py:252-266 | With `users.view_savedview`, a user sees exactly the saved views its object permissions admit. Without it, a user sees exactly the saved views that are shared or that it owns. |
| `Visibility.ListViews` | nautobot/users/views.py:301-304 | The list page is refused if and only if the user lacks `users.view_savedview`. When allowed, it lists exactly the permitted saved views. |
| `Visibility.SharingMakesVisible` | nautobot/users/views.py:263-265 | Marking a saved view shared makes it visible to every user that lacks the view permission. |
| `Visibility.UnsharedVisibleOnlyToOwner` | nautobot/users/views.py:260-265 | Without the view permission, an unshared saved view is visible to a user if and only if that user owns it. |
| `Visibility.VisibilityDependsOnSharingAndOwnership` | nautobot/users/views.py:262-265 | Without the view permission, visibility depends only on the owner and shared flag of each saved view. |
| `Associations.Select` | nautobot/users/views.py:321 | Filtering association rows keeps exactly the rows that match (or do not match) the filter, and never adds rows. The by-saved-view filter also serves the assumed deletion cascade. |
| `Defaults.SetDefault` | nautobot/users/views.py:315-327 | A missing saved view gives `NotFound` with no change. Otherwise the user's rows for that view become exactly one row pointing at the chosen saved view. Rows for other users or other views are kept in order, and saved views are untouched. |
| `Defaults.SetDefaultIdempotent` | nautobot/users/views.py:320-322 | Setting the same default twice gives the same store as setting it once. |
| `Defaults.SetDefaultPreservesValid` | nautobot/users/views.py:320-322 | Setting a default keeps at most one association per `(user, view)` and leaves no association dangling. |
| `Defaults.SetDefaultIgnoresVisibility` | nautobot/users/views.py:319-322 | Setting a default checks no permission: it succeeds even for a saved view the user cannot see. |
| `ConfigUpdate.RequestFilters` | nautobot/users/views.py:351-359 | The request's filters are every key outside `non_filter_params`. `q` keeps its last value; every other key keeps its full list. |
| `ConfigUpdate.UpdateConfig` | nautobot/users/views.py:330-376 | A user who is neither owner nor holder of `users.change_savedview` is refused, and so are a missing saved view, an unparsable `per_page` and a failed validation; none of them changes the store. The update is saved if and only if the saved view exists, the caller may change it, `per_page` (when given) parses and the merged record passes validation; `BadInteger` occurs only for a `per_page` that does not parse, and `Invalid` occurs exactly when such an allowed, parseable update yields a record that fails validation. On success, only that saved view's config changes: `per_page` overwrites the page size; a non-empty `sort` overwrites the sort order; request filters replace the stored filters; with no request filters, `all_filters_removed` resets them to `{}`, and otherwise they are kept. With changes pending and a resolvable table class, only that class's layout is written and all other layouts are kept. |
| `ConfigUpdate.UpdateConfigIdempotent` | nautobot/users/views.py:342-373 | Applying a successful update a second time changes nothing. |
| `ConfigUpdate.UpdateConfigPreservesValid` | nautobot/users/views.py:330-373 | An update keeps names unique and associations consistent. |
| `ConfigUpdate.UpdateConfigKeepsVisibility` | nautobot/users/views.py:334-373 | An update never changes which saved views a user without the view permission can see. |
| `Creation.Coerce` | nautobot/users/views.py:389-394 | Coercion keeps the set of keys. Each single-valued key (`saved_view`, `table_changes_pending`, `all_filters_removed`, `q`, `per_page`) keeps its first value; every other key keeps its full list. |
| `Creation.CoerceRoundTrip` | nautobot/users/views.py:391-394 | Coercing and expanding back gives the parsed query if and only if every single-valued key was given exactly once. |
| `Creation.DerivationSource` | nautobot/users/views.py:396-399 | A non-empty `saved_view` names the source record, or gives `NotFound` when no such record exists. Without it there is no source. |
| `Creation.RequestFilters` | nautobot/users/views.py:432-436 | The filters of a create request are every key outside `non_filter_params` and `view`, each with its coerced value: the first value for a single-valued key, the full list otherwise. |
| `Creation.Create` | nautobot/users/views.py:383-460 | An unknown source gives `NotFound`, an unresolvable view gives `InvalidView`, an empty `is_shared` value gives `BadFlag`, and otherwise an existing `(owner, view, name)` gives `DuplicateName`. Every failure has its cause: `NotFound` only for an unknown source, `InvalidView` only for an unresolvable view, `BadFlag` only for an empty `is_shared`, `DuplicateName` only for a taken name, `BadInteger` only for an unparsable `per_page`, `MissingKey` only for a source without filters when `per_page` parses (the page size is read first), the request has no filters and does not remove them, and `Invalid` only when the built record fails validation; so a request with none of these causes succeeds. Conversely, past the view, flag and name checks, an unparsable `per_page` always gives `BadInteger`, and a source without filters (when the page size parses, the request has no filters and does not remove them) always gives `MissingKey`; a success always stores a page size and filters. Every failure leaves the store unchanged. Success adds exactly one record with the requested name, view and owner; it is shared exactly when `is_shared` was sent with a non-empty value. Each config field comes from the request if present, else from the source, else from a default: the system page size for pagination, `[]` for sort, `{}` for filters when they were removed or there is no source, and the user's current layout for the view's table class when there is no source or changes are pending. Otherwise the source's non-empty layout for that class is copied, or no layout is stored. |
| `Creation.CreateAsWritten` | nautobot/users/views.py:411-460 | The code as written. Every failure has the same cause as in `Creation.Create`, and the unparsable page size and the source without filters fail here as there. Early failures leave the store unchanged. A failure after the insert leaves a record with an empty config in the store. |
| `Creation.CreateAgreesWithAsWritten` | nautobot/users/views.py:411-460 | Both versions report the same status and agree on every successful create. |
| `Creation.BadPageSizeLeavesBareRecord` | nautobot/users/views.py:412-425 | `per_page=abc` with a fresh name leaves a record with an empty config under the written code, and adds nothing under the atomic version. |
| `Creation.RejectedRecordLeavesBareRecord` | nautobot/users/views.py:452-460 | A record that fails validation: the written code catches the error and keeps a record with an empty config, whatever the transaction mode; the atomic version adds nothing. |
| `Creation.CreatePreservesValid` | nautobot/users/views.py:411-418 | Creation keeps `(owner, view, name)` unique and associations consistent. |
| `Deletion.DestroyGuardedBy` | nautobot/users/views.py:468-476 | A missing saved view gives `NotFound`. A caller who is neither owner nor holder of the gate permission is refused. Deletion happens if and only if the caller is allowed and has confirmed. An allowed GET or unconfirmed POST, and only that, shows the confirmation page, and a refusal only ever concerns a non-owner without the permission. A deletion removes the saved view and exactly the associations pointing at it. Everything else changes nothing. |
| `Deletion.DestroyAsWritten` | nautobot/users/views.py:468-476 | The code as written, which checks `extras.delete_savedview`. A non-owner without that permission is refused with no change. |
| `Deletion.Destroy` | nautobot/users/views.py:462-476 | The same gate with `users.delete_savedview`, with the same outcomes: `NotFound` for a missing saved view, refusal exactly for a non-owner without the permission, the confirmation page exactly for an allowed GET or unconfirmed POST, deletion exactly for an allowed confirmed POST. After a deletion, no association refers to the deleted saved view. Every other association is kept in order. |
| `Deletion.DeletePermissionHolderRefused` | nautobot/users/views.py:469 | A non-owner holding `users.delete_savedview` is refused by the written code and allowed by the corrected one. |
| `Deletion.DestroyPreservesValid` | nautobot/users/views.py:462-476 | Deletion leaves no dangling association and keeps the store consistent. |
| `Preferences.ClearPreferences` | nautobot/users/views.py:166-177 | Exactly the selected preference keys that exist are removed. Every other preference is kept with its value. |

## Left out

- Login, logout, profile, password change, API tokens and advanced settings (lines 47-151, 153-164 and 180-230, and 484-644). They are framework authentication, sessions, forms and templates, with no saved-view logic.
- The anonymous-user guard in `dispatch`, `check_permissions`, `get_queryset`, `retrieve` (a redirect to the list view) and `extra_message` (HTML text). The model always takes an authenticated user and describes outcomes as store plus status.
- Messages, redirect URLs and `get_return_url`. Every failure is a `Failed(reason)` status; the page the user is sent back to is not modelled.
- The helpers `get_table_class_string_from_view_name`, `user.get_config`, `get_settings_or_config`, `reverse`, `int()` and model validation. Their code is not part of this model, so they are opaque parameters.
- Clearing `is_global_default` on other saved views, and resolving which default applies. Both live in the saved-view model and the list-view mixin, which are not part of this model. `isGlobalDefault` is carried through unchanged, and `create` sets it to false.
- `Creation.Create`: that an empty `is_shared` fails comes from Django's boolean model field, which accepts only booleans and a few spellings of them and raises a `ValidationError` for the empty string when the insert is prepared; the field code is not part of this model. The failure is modelled as `BadFlag` before the uniqueness check, with nothing inserted.
- `Creation.DerivationSource`: the lookup at line 399 goes through `get_queryset`, which is taken to see every saved view (`self.queryset.all()`, line 273). If the list mixin narrows `self.queryset` to the result of `alter_queryset` for the request, that lookup, and the object lookup inside the inherited `destroy` (line 476), would see only the saved views visible to the caller; the model does not thread `Visibility.VisibleTo` through them. That mixin is not part of this model.
- `Creation.Create`: a fresh record starts with an empty `config` and `is_global_default` false (`Records.EmptyConfig`); these defaults belong to the saved-view model's field declarations, which are not part of this model.
- Concurrency. Every request is modelled as atomic and applied one at a time. `set_default` deletes the user's rows (line 321) and then inserts the new one (line 322) with no transaction around them, so two concurrent requests can both delete and then both insert, leaving two rows for one `(user, view_name)`. `Defaults.SetDefaultPreservesValid` holds only for requests run one at a time.
- `Visibility.ListViews` assumes that the list action of `ObjectListViewMixin` shows the queryset `alter_queryset` returns. That mixin is not part of this model.
- Deleting a saved view also removes its associations. That cascade is the foreign key's on-delete behaviour in the users models module. That module is not part of this model, so the cascade is assumed. The confirmation form of `ObjectDestroyViewMixin` is abstracted to a GET or a confirmed/unconfirmed POST.
- Config keys other than `pagination_count`, `sort_order`, `filter_params` and `table_config` are not represented. An absent key and a JSON `null` are both `None`. Config values are typed, so the model ignores `int()` on a stored count of another JSON type.
- `Values.Parsed` is a precondition: no key carries an empty list. The request's query dictionary and `parse_qs` never produce one, so the source has no branch for it.
- `name` and `view` are always strings, so the `None` that `request.POST.get` can return is not modelled.
- `Preferences.ClearPreferences`: it treats a key selected twice as removed once, and treats preference keys as top-level keys, which is how `all_config()` presents them.
- `Deletion.DestroyAsWritten`: its contract states only the refusal and the deleted key. The full contract is stated once, on `Deletion.DestroyGuardedBy`, which it instantiates.

## Findings

| source | as written | input that shows it | evidently intended | confidence | as-written member | corrected member |
|---|---|---|---|---|---|---|
| nautobot/users/views.py:469 | `destroy` lets a non-owner delete only with `extras.delete_savedview`, while the saved-view model belongs to the `users` app (list and update check `users.view_savedview` and `users.change_savedview`) | a non-owner holding `users.delete_savedview` submits a confirmed delete | gate on `users.delete_savedview` | medium, not executed | `Deletion.DestroyAsWritten`, `Deletion.DeletePermissionHolderRefused` | `Deletion.Destroy` |
| nautobot/users/views.py:412-460 | `create` inserts the row before it computes the config. A later failure reports an error but leaves a saved view with an empty config. The failure can be `int()` on `per_page`, a source without `filter_params`, or the caught `ValidationError`. | `per_page=abc` with a fresh name and a valid view | a failed create adds no record | medium, not executed; the uncaught `int()` and key errors are rolled back only if requests run in a database transaction, but the caught `ValidationError` is not rolled back in either case | `Creation.CreateAsWritten`, `Creation.BadPageSizeLeavesBareRecord`, `Creation.RejectedRecordLeavesBareRecord` | `Creation.Create` |

=== FILE: associations.dfy ===
/** Selecting rows of the `UserSavedViewAssociation` table, as the ORM's
    `filter(...)` and `filter(...).delete()` do, and the algebra of selection
    the default and delete operations rely on. */
module Associations {
  import opened Records

  /** The two row filters the views use: by `(user, view_name)` pair and by
      referenced saved view. */
  datatype Selector = ForPair(user: UserId, viewName: string) | ForView(savedView: Id)

  predicate Selects(sel: Selector, a: Assoc) {
    match sel
    case ForPair(u, v) => a.user == u && a.viewName == v
    case ForView(id) => a.savedView == id
  }

  /** The rows `sel` matches (`keep`) or does not match (`!keep`), in their
      original order. */
  function Select(rows: seq<Assoc>, sel: Selector, keep: bool): (r: seq<Assoc>)
    ensures |r| <= |rows|
    ensures forall a :: a in r <==> a in rows && Selects(sel, a) == keep
    decreases |rows|
  {
    if rows == [] then []
    else (if Selects(sel, rows[0]) == keep then [rows[0]] else []) + Select(rows[1..], sel, keep)
  }

  lemma {:induction false} SelectAppend(xs: seq<Assoc>, ys: seq<Assoc>, sel: Selector, keep: bool)
    ensures Select(xs + ys, sel, keep) == Select(xs, sel, keep) + Select(ys, sel, keep)
    decreases |xs|
  {
    if xs == [] {
      assert xs + ys == ys;
    } else {
      assert (xs + ys)[1..] == xs[1..] + ys;
      SelectAppend(xs[1..], ys, sel, keep);
    }
  }

  lemma SelectSingle(a: Assoc, sel: Selector, keep: bool)
    ensures Select([a], sel, keep) == if Selects(sel, a) == keep then [a] else []
  {
    assert [a][1..] == [];
  }

  /** Selecting what a selection dropped yields nothing. */
  lemma {:induction false} SelectComplement(rows: seq<Assoc>, sel: Selector, keep: bool)
    ensures Select(Select(rows, sel, !keep), sel, keep) == []
    decreases |rows|
  {
    if rows != [] {
      var head := [rows[0]];
      assert rows == head + rows[1..];
      SelectAppend(head, rows[1..], sel, !keep);
      SelectAppend(Select(head, sel, !keep), Select(rows[1..], sel, !keep), sel, keep);
      SelectSingle(rows[0], sel, !keep);
      SelectSingle(rows[0], sel, keep);
      SelectComplement(rows[1..], sel, keep);
    }
  }

  /** Two selections commute. */
  lemma {:induction false} SelectCommute(rows: seq<Assoc>, s1: Selector, k1: bool, s2: Selector, k2: bool)
    ensures Select(Select(rows, s1, k1), s2, k2) == Select(Select(rows, s2, k2), s1, k1)
    decreases |rows|
  {
    if rows != [] {
      var head := [rows[0]];
      assert rows == head + rows[1..];
      SelectAppend(head, rows[1..], s1, k1);
      SelectAppend(head, rows[1..], s2, k2);
      SelectAppend(Select(head, s1, k1), Select(rows[1..], s1, k1), s2, k2);
      SelectAppend(Select(head, s2, k2), Select(rows[1..], s2, k2), s1, k1);
      SelectSingle(rows[0], s1, k1);
      SelectSingle(rows[0], s2, k2);
      SelectCommute(rows[1..], s1, k1, s2, k2);
    }
  }

  /** Selecting again with the same filter changes nothing. */
  lemma {:induction false} SelectIdempotent(rows: seq<Assoc>, sel: Selector, keep: bool)
    ensures Select(Select(rows, sel, keep), sel, keep) == Select(rows, sel, keep)
    decreases |rows|
  {
    if rows != [] {
      var head := [rows[0]];
      assert rows == head + rows[1..];
      SelectAppend(head, rows[1..], sel, keep);
      SelectAppend(Select(head, sel, keep), Select(rows[1..], sel, keep), sel, keep);
      SelectSingle(rows[0], sel, keep);
      SelectIdempotent(rows[1..], sel, keep);
    }
  }

  /** Dropping rows never adds rows to another selection. */
  lemma SelectAfterDrop(rows: seq<Assoc>, dropped: Selector, sel: Selector)
    ensures |Select(Select(rows, dropped, false), sel, true)| <= |Select(rows, sel, true)|
  {
    SelectCommute(rows, dropped, false, sel, true);
  }
}

=== FILE: config_update.dfy ===
/** `update_saved_view_config`: merge the list view's current query string
    into an existing saved view's configuration, field by field. */
module ConfigUpdate {
  import opened Values
  import opened Records
  import opened Invariants
  import opened Visibility

  /** Only the owner or a holder of the change permission may update. */
  predicate MayChange(sv: SavedView, user: User) {
    sv.owner == user.id || HasPerm(user, ChangePerm)
  }

  /** The filters the request carries: every key outside `nonFilter`, the
      search box `q` as its last value and every other key as its list. */
  function RequestFilters(q: Query, nonFilter: set<string>): (r: map<string, Param>)
    requires Parsed(q)
    ensures r.Keys == q.Keys - nonFilter
    ensures "q" in r ==> r["q"] == One(Last(q, "q").value)
    ensures forall k :: k in r && k != "q" ==> r[k] == Many(q[k])
  {
    map k | k in q && k !in nonFilter :: if k == "q" then One(q[k][|q[k]| - 1]) else Many(q[k])
  }

  /** The table layout after the update: with changes pending and a table
      class for the view, the user's current layout for that one class. */
  function MergeTable(current: Option<map<string, Json>>, q: Query, view: string, user: User, env: Env): Option<map<string, Json>>
  {
    var table := env.tableClassOf(view);
    if IsSet(Last(q, "table_changes_pending")) && IsSet(table) then
      var layouts := if current.Some? then current.value else map[];
      Some(layouts[table.value := env.tableConfigOf(user.id, table.value)])
    else current
  }

  /** The merged configuration, or `BadInteger` when `int()` rejects `per_page`. */
  function MergeConfig(c: Config, q: Query, view: string, user: User, env: Env): Result<Config, Failure>
    requires Parsed(q)
  {
    var perPage := Last(q, "per_page");
    if perPage.Some? && env.parseInt(perPage.value).None? then Err(BadInteger)
    else
      var count := if perPage.Some? then env.parseInt(perPage.value) else c.paginationCount;
      var sort := if ListOf(q, "sort") != [] then Some(ListOf(q, "sort")) else c.sortOrder;
      var filters := RequestFilters(q, env.nonFilterParams);
      var filterParams :=
        if filters != map[] then Some(filters)
        else if IsSet(Last(q, "all_filters_removed")) then Some(map[])
        else c.filterParams;
      Ok(Config(count, sort, filterParams, MergeTable(c.tableConfig, q, view, user, env)))
  }

  function UpdateConfig(s: Store, id: Id, user: User, q: Query, env: Env): (r: Reply)
    requires Parsed(q)
    // refusals and failures change nothing
    ensures id !in s.views ==> r == Reply(s, Failed(NotFound))
    ensures id in s.views && !MayChange(s.views[id], user) ==> r == Reply(s, Failed(PermissionDenied))
    ensures r.status != Done ==> r.store == s && r.status.Failed?
    ensures (id in s.views && MayChange(s.views[id], user) && Last(q, "per_page").Some?
             && env.parseInt(Last(q, "per_page").value).None?) ==> r == Reply(s, Failed(BadInteger))
    // an allowed, parseable update that passes validation is saved
    ensures r.status == Done <==>
      && id in s.views && MayChange(s.views[id], user)
      && MergeConfig(s.views[id].config, q, s.views[id].view, user, env).Ok?
      && env.isValid(s.views[id].(config := MergeConfig(s.views[id].config, q, s.views[id].view, user, env).value))
    ensures r.status == Failed(BadInteger) ==>
      Last(q, "per_page").Some? && env.parseInt(Last(q, "per_page").value).None?
    // validation rejects exactly an allowed, parseable update whose record is invalid
    ensures r.status == Failed(Invalid) <==>
      && id in s.views && MayChange(s.views[id], user)
      && MergeConfig(s.views[id].config, q, s.views[id].view, user, env).Ok?
      && !env.isValid(s.views[id].(config := MergeConfig(s.views[id].config, q, s.views[id].view, user, env).value))
    // success touches the one saved view's configuration and nothing else
    ensures r.status == Done ==>
      && id in s.views && MayChange(s.views[id], user)
      && r.store.assocs == s.assocs
      && r.store.views.Keys == s.views.Keys
      && (forall other :: other in s.views && other != id ==> r.store.views[other] == s.views[other])
      && r.store.views[id] == s.views[id].(config := r.store.views[id].config)
      && env.isValid(r.store.views[id])
    // pagination: per_page overwrites, its absence keeps
    ensures r.status == Done ==>
      var before := s.views[id].config;
      var after := r.store.views[id].config;
      && (Last(q, "per_page").Some? ==> after.paginationCount == env.parseInt(Last(q, "per_page").value))
      && (Last(q, "per_page").None? ==> after.paginationCount == before.paginationCount)
    // sort: a non-empty list overwrites, no list keeps
    ensures r.status == Done ==>
      var before := s.views[id].config;
      var after := r.store.views[id].config;
      && (ListOf(q, "sort") != [] ==> after.sortOrder == Some(q["sort"]))
      && (ListOf(q, "sort") == [] ==> after.sortOrder == before.sortOrder)
    // filters: replaced by the request's, else reset on request, else kept
    ensures r.status == Done ==>
      var before := s.views[id].config;
      var after := r.store.views[id].config;
      && (q.Keys - env.nonFilterParams != {} ==> after.filterParams == Some(RequestFilters(q, env.nonFilterParams)))
      && (q.Keys <= env.nonFilterParams && IsSet(Last(q, "all_filters_removed")) ==> after.filterParams == Some(map[]))
      && (q.Keys <= env.nonFilterParams && !IsSet(Last(q, "all_filters_removed")) ==> after.filterParams == before.filterParams)
    // table layout: only the view's own table class, only when changes are pending
    ensures r.status == Done ==>
      var before := s.views[id].config;
      var after := r.store.views[id].config;
      var table := env.tableClassOf(s.views[id].view);
      if IsSet(Last(q, "table_changes_pending")) && IsSet(table) then
        && after.tableConfig.Some?
        && after.tableConfig.value.Keys == (if before.tableConfig.Some? then before.tableConfig.value.Keys else {}) + {table.value}
        && after.tableConfig.value[table.value] == env.tableConfigOf(user.id, table.value)
        && (forall t :: before.tableConfig.Some? && t in before.tableConfig.value && t != table.value ==>
              after.tableConfig.value[t] == before.tableConfig.value[t])
      else after.tableConfig == before.tableConfig
  {
    if id !in s.views then Reply(s, Failed(NotFound))
    else
      var sv := s.views[id];
      if !MayChange(sv, user) then Reply(s, Failed(PermissionDenied))
      else match MergeConfig(sv.config, q, sv.view, user, env)
        case Err(e) => Reply(s, Failed(e))
        case Ok(c) =>
          var updated := sv.(config := c);
          if env.isValid(updated) then Reply(s.(views := s.views[id := updated]), Done)
          else Reply(s, Failed(Invalid))
  }

  /** Applying the same update twice leaves the store as applying it once. */
  lemma UpdateConfigIdempotent(s: Store, id: Id, user: User, q: Query, env: Env)
    requires Parsed(q)
    ensures var once := UpdateConfig(s, id, user, q, env);
      once.status == Done ==> UpdateConfig(once.store, id, user, q, env) == once
  {
    var once := UpdateConfig(s, id, user, q, env);
    if once.status == Done {
      var sv := s.views[id];
      var c := MergeConfig(sv.config, q, sv.view, user, env).value;
      var table := env.tableClassOf(sv.view);
      if IsSet(Last(q, "table_changes_pending")) && IsSet(table) {
        var layout := env.tableConfigOf(user.id, table.value);
        assert c.tableConfig.value[table.value := layout] == c.tableConfig.value;
      }
      assert MergeConfig(c, q, sv.view, user, env) == Ok(c);
      assert once.store.views[id := sv.(config := c)] == once.store.views;
    }
  }

  /** An update keeps the store consistent. */
  lemma UpdateConfigPreservesValid(s: Store, id: Id, user: User, q: Query, env: Env)
    requires Parsed(q)
    requires Valid(s)
    ensures Valid(UpdateConfig(s, id, user, q, env).store)
  {
    var after := UpdateConfig(s, id, user, q, env).store;
    if after != s {
      forall a, b | a in after.views && b in after.views && a != b
        ensures !(after.views[a].owner == after.views[b].owner && after.views[a].view == after.views[b].view
                  && after.views[a].name == after.views[b].name)
      {
        assert after.views[a].owner == s.views[a].owner && after.views[a].view == s.views[a].view
               && after.views[a].name == s.views[a].name;
        assert after.views[b].owner == s.views[b].owner && after.views[b].view == s.views[b].view
               && after.views[b].name == s.views[b].name;
      }
    }
  }

  /** An update never changes who can see which saved view without the view
      permission. */
  lemma UpdateConfigKeepsVisibility(s: Store, id: Id, user: User, q: Query, env: Env, viewer: User, permitted: SavedView -> bool)
    requires Parsed(q)
    requires !HasPerm(viewer, ViewPerm)
    ensures VisibleTo(UpdateConfig(s, id, user, q, env).store, viewer, permitted) == VisibleTo(s, viewer, permitted)
  {
    VisibilityDependsOnSharingAndOwnership(UpdateConfig(s, id, user, q, env).store, s, viewer, permitted, permitted);
  }
}

=== FILE: creation.dfy ===
/** `create`: store the list view's current state as a new named saved view,
    optionally derived from an existing one, filling every configuration field
    from the request, else from the derivation source, else from a default. */
module Creation {
  import opened Values
  import opened Records
  import opened Invariants

  /** The keys `create` reduces to one value before use. */
  const SingleValueParams: set<string> := {"saved_view", "table_changes_pending", "all_filters_removed", "q", "per_page"}

  /** The submitted form: `name`, `view`, the raw `is_shared` field and the
      `params` field after `parse_qs`. */
  datatype CreateForm = CreateForm(name: string, view: string, shared: Option<string>, params: Query)

  /** The `is_shared` field as the insert receives it: absent stays false and
      a non-empty value becomes true, but an empty value is passed on as the
      empty string, which the boolean column rejects before any row is written. */
  predicate SharedRejected(form: CreateForm) {
    form.shared == Some("")
  }

  /** Single-valued keys keep their first value; every other key keeps its list. */
  function Coerce(params: Query): (r: map<string, Param>)
    requires Parsed(params)
    ensures r.Keys == params.Keys
    ensures forall k :: k in r && k in SingleValueParams ==> r[k] == One(First(params, k).value)
    ensures forall k :: k in r && k !in SingleValueParams ==> r[k] == Many(params[k])
  {
    map k | k in params :: if k in SingleValueParams then One(params[k][0]) else Many(params[k])
  }

  /** Undo the representation change of `Coerce`: a single value is a
      one-element list. */
  function Expand(coerced: map<string, Param>): Query {
    map k | k in coerced :: match coerced[k] case One(v) => [v] case Many(vs) => vs
  }

  /** Coercion loses nothing exactly when every single-valued key was given
      once. */
  lemma CoerceRoundTrip(params: Query)
    requires Parsed(params)
    ensures Expand(Coerce(params)) == params <==>
            forall k :: k in params && k in SingleValueParams ==> |params[k]| == 1
  {
    if forall k :: k in params && k in SingleValueParams ==> |params[k]| == 1 {
      forall k | k in params
        ensures Expand(Coerce(params))[k] == params[k]
      {
        if k in SingleValueParams {
          assert params[k] == [params[k][0]];
        }
      }
    } else {
      var k :| k in params && k in SingleValueParams && |params[k]| != 1;
      assert Expand(Coerce(params))[k] == [params[k][0]];
    }
  }

  /** The saved view the request derives from, if `saved_view` names one. */
  function DerivationSource(s: Store, params: Query): (r: Result<Option<SavedView>, Failure>)
    ensures !IsSet(First(params, "saved_view")) ==> r == Ok(None)
    ensures IsSet(First(params, "saved_view")) ==>
      var pk := First(params, "saved_view").value;
      (pk in s.views ==> r == Ok(Some(s.views[pk]))) && (pk !in s.views ==> r == Err(NotFound))
  {
    var pk := First(params, "saved_view");
    if !IsSet(pk) then Ok(None)
    else if pk.value in s.views then Ok(Some(s.views[pk.value]))
    else Err(NotFound)
  }

  /** The source's page size when it has a non-zero one. */
  function SourceCount(derived: Option<SavedView>): Option<int> {
    if derived.Some? && derived.value.config.paginationCount.Some? && derived.value.config.paginationCount.value != 0
    then derived.value.config.paginationCount
    else None
  }

  /** `pagination_count`: `per_page`, else the source's non-zero count, else the system page size. */
  function NewPagination(params: Query, derived: Option<SavedView>, env: Env): Result<int, Failure> {
    var perPage := First(params, "per_page");
    if IsSet(perPage) then
      match env.parseInt(perPage.value)
      case Some(n) => Ok(n)
      case None => Err(BadInteger)
    else if SourceCount(derived).Some? then Ok(SourceCount(derived).value)
    else Ok(env.pageSize)
  }

  /** `sort_order`: the request's `sort`, else the source's (or none), else none. */
  function NewSort(params: Query, derived: Option<SavedView>): seq<string> {
    if ListOf(params, "sort") != [] then ListOf(params, "sort")
    else if derived.Some? && derived.value.config.sortOrder.Some? then derived.value.config.sortOrder.value
    else []
  }

  /** The filters the request carries: every key outside the non-filter keys and `view`. */
  function RequestFilters(params: Query, nonFilter: set<string>): (r: map<string, Param>)
    requires Parsed(params)
    ensures r.Keys == params.Keys - nonFilter - {"view"}
    ensures forall k :: k in r && k in SingleValueParams ==> r[k] == One(First(params, k).value)
    ensures forall k :: k in r && k !in SingleValueParams ==> r[k] == Many(params[k])
  {
    var coerced := Coerce(params);
    map k | k in coerced && k !in nonFilter && k != "view" :: coerced[k]
  }

  /** `filter_params`: the request's filters; failing those, none when the
      source's filters were removed, the source's own, or none without a source. */
  function NewFilters(params: Query, derived: Option<SavedView>, env: Env): Result<map<string, Param>, Failure>
    requires Parsed(params)
  {
    var filters := RequestFilters(params, env.nonFilterParams);
    if filters != map[] then Ok(filters)
    else if derived.Some? && IsSet(First(params, "all_filters_removed")) then Ok(map[])
    else if derived.Some? then
      match derived.value.config.filterParams
      case Some(f) => Ok(f)
      case None => Err(MissingKey)
    else Ok(map[])
  }

  /** `table_config`: for the view's table class only, the user's current
      layout when changes are pending or there is no source, else the source's
      layout for that class when it has a non-empty one. */
  function NewTable(params: Query, derived: Option<SavedView>, view: string, user: User, env: Env): map<string, Json> {
    var table := env.tableClassOf(view);
    if !IsSet(table) then map[]
    else if IsSet(First(params, "table_changes_pending")) || derived.None? then
      map[table.value := env.tableConfigOf(user.id, table.value)]
    else
      match derived.value.config.tableConfig
      case Some(layouts) =>
        if table.value in layouts && Truthy(layouts[table.value]) then map[table.value := layouts[table.value]] else map[]
      case None => map[]
  }

  /** The record a create request stores once its page size and filters are known. */
  function NewRecord(user: User, form: CreateForm, derived: Option<SavedView>, count: int,
                     filters: map<string, Param>, env: Env): SavedView
  {
    SavedView(form.name, form.view, user.id, IsSet(form.shared), false,
              Config(Some(count), Some(NewSort(form.params, derived)), Some(filters),
                     Some(NewTable(form.params, derived, form.view, user, env))))
  }

  /** Every failure of a create request has its cause: an unknown source, an
      unresolvable view, a taken name, an unparsable page size, a source
      without filters, or a record that fails validation. */
  predicate FailuresHaveCauses(s: Store, user: User, form: CreateForm, env: Env, status: Status)
    requires Parsed(form.params)
  {
    var source := DerivationSource(s, form.params);
    var derived := if source.Ok? then source.value else None;
    && (status == Failed(NotFound) ==> source.Err?)
    && (status == Failed(InvalidView) ==> source.Ok? && !env.resolves(form.view))
    && (status == Failed(BadFlag) ==> source.Ok? && env.resolves(form.view) && SharedRejected(form))
    && (status == Failed(DuplicateName) ==>
          source.Ok? && env.resolves(form.view) && !SharedRejected(form) && Taken(s.views, user.id, form.view, form.name))
    && (status == Failed(BadInteger) ==>
          IsSet(First(form.params, "per_page")) && env.parseInt(First(form.params, "per_page").value).None?)
    && (status == Failed(MissingKey) ==>
          && NewPagination(form.params, derived, env).Ok?
          && RequestFilters(form.params, env.nonFilterParams) == map[]
          && derived.Some? && !IsSet(First(form.params, "all_filters_removed"))
          && derived.value.config.filterParams.None?)
    && (status == Failed(Invalid) ==>
          && NewPagination(form.params, derived, env).Ok?
          && NewFilters(form.params, derived, env).Ok?
          && !env.isValid(NewRecord(user, form, derived, NewPagination(form.params, derived, env).value,
                                    NewFilters(form.params, derived, env).value, env)))
    && status != Failed(PermissionDenied)
  }

  /** How far a create request gets: refused before anything is inserted,
      failed after the bare record was inserted, or built. */
  datatype Progress =
    | Early(failure: Failure)
    | Late(failure: Failure, bare: SavedView)
    | Built(record: SavedView)

  function Attempt(s: Store, user: User, form: CreateForm, env: Env): Progress
    requires Parsed(form.params)
  {
    match DerivationSource(s, form.params)
    case Err(e) => Early(e)
    case Ok(derived) =>
      if !env.resolves(form.view) then Early(InvalidView)
      else if SharedRejected(form) then Early(BadFlag)
      else if Taken(s.views, user.id, form.view, form.name) then Early(DuplicateName)
      else
        var bare := SavedView(form.name, form.view, user.id, IsSet(form.shared), false, EmptyConfig);
        match NewPagination(form.params, derived, env)
        case Err(e) => Late(e, bare)
        case Ok(count) =>
          match NewFilters(form.params, derived, env)
          case Err(e) => Late(e, bare)
          case Ok(filters) =>
            var record := NewRecord(user, form, derived, count, filters, env);
            if env.isValid(record) then Built(record) else Late(Invalid, bare)
  }

  /** `create` as written: the record is inserted before its configuration is
      computed, so a failure after that point leaves the bare record behind. */
  function CreateAsWritten(s: Store, user: User, form: CreateForm, env: Env, newId: Id): (r: Reply)
    requires Parsed(form.params)
    requires newId !in s.views
    ensures r.status.Failed? || r.status == Done
    ensures FailuresHaveCauses(s, user, form, env, r.status)
    // the two uncaught errors: an unparsable page size, then a source without filters
    ensures DerivationSource(s, form.params).Ok? && env.resolves(form.view) && !SharedRejected(form)
            && !Taken(s.views, user.id, form.view, form.name)
            && NewPagination(form.params, DerivationSource(s, form.params).value, env).Err? ==>
      r.status == Failed(BadInteger)
    ensures DerivationSource(s, form.params).Ok? && env.resolves(form.view) && !SharedRejected(form)
            && !Taken(s.views, user.id, form.view, form.name)
            && NewPagination(form.params, DerivationSource(s, form.params).value, env).Ok?
            && RequestFilters(form.params, env.nonFilterParams) == map[]
            && DerivationSource(s, form.params).value.Some? && !IsSet(First(form.params, "all_filters_removed"))
            && DerivationSource(s, form.params).value.value.config.filterParams.None? ==>
      r.status == Failed(MissingKey)
    ensures r.status == Done ==>
      newId in r.store.views
      && r.store.views[newId].config.paginationCount.Some? && r.store.views[newId].config.filterParams.Some?
    ensures r.store.assocs == s.assocs
    ensures r.status in {Failed(NotFound), Failed(InvalidView), Failed(BadFlag), Failed(DuplicateName)} ==> r.store == s
    ensures r.status in {Failed(BadInteger), Failed(MissingKey), Failed(Invalid)} ==>
      r.store.views == s.views[newId := SavedView(form.name, form.view, user.id, IsSet(form.shared), false, EmptyConfig)]
  {
    match Attempt(s, user, form, env)
    case Early(e) => Reply(s, Failed(e))
    case Late(e, bare) => Reply(s.(views := s.views[newId := bare]), Failed(e))
    case Built(record) => Reply(s.(views := s.views[newId := record]), Done)
  }

  /** `create` with the insertion made atomic: any failure adds nothing. */
  function Create(s: Store, user: User, form: CreateForm, env: Env, newId: Id): (r: Reply)
    requires Parsed(form.params)
    requires newId !in s.views
    ensures r.status.Failed? || r.status == Done
    ensures FailuresHaveCauses(s, user, form, env, r.status)
    ensures r.status.Failed? ==> r.store == s
    // the two uncaught errors: an unparsable page size, then a source without filters
    ensures DerivationSource(s, form.params).Ok? && env.resolves(form.view) && !SharedRejected(form)
            && !Taken(s.views, user.id, form.view, form.name)
            && NewPagination(form.params, DerivationSource(s, form.params).value, env).Err? ==>
      r.status == Failed(BadInteger)
    ensures DerivationSource(s, form.params).Ok? && env.resolves(form.view) && !SharedRejected(form)
            && !Taken(s.views, user.id, form.view, form.name)
            && NewPagination(form.params, DerivationSource(s, form.params).value, env).Ok?
            && RequestFilters(form.params, env.nonFilterParams) == map[]
            && DerivationSource(s, form.params).value.Some? && !IsSet(First(form.params, "all_filters_removed"))
            && DerivationSource(s, form.params).value.value.config.filterParams.None? ==>
      r.status == Failed(MissingKey)
    ensures r.status == Done ==>
      newId in r.store.views
      && r.store.views[newId].config.paginationCount.Some? && r.store.views[newId].config.filterParams.Some?
    ensures !IsSet(First(form.params, "saved_view")) || First(form.params, "saved_view").value in s.views ==>
      && (!env.resolves(form.view) ==> r.status == Failed(InvalidView))
      && (env.resolves(form.view) && SharedRejected(form) ==> r.status == Failed(BadFlag))
      && (env.resolves(form.view) && !SharedRejected(form) && Taken(s.views, user.id, form.view, form.name) ==>
            r.status == Failed(DuplicateName))
    ensures IsSet(First(form.params, "saved_view")) && First(form.params, "saved_view").value !in s.views ==>
      r.status == Failed(NotFound)
    // success adds exactly one record, with the requested identity
    ensures r.status == Done ==>
      && env.resolves(form.view) && !SharedRejected(form) && !Taken(s.views, user.id, form.view, form.name)
      && r.store.assocs == s.assocs
      && newId in r.store.views
      && r.store.views == s.views[newId := r.store.views[newId]]
      && var sv := r.store.views[newId];
         sv.name == form.name && sv.view == form.view && sv.owner == user.id
         && sv.isShared == IsSet(form.shared) && !sv.isGlobalDefault && env.isValid(sv)
    // pagination: per_page, else the source's non-zero count, else the system page size
    ensures r.status == Done ==>
      var count := r.store.views[newId].config.paginationCount;
      var source := DerivationSource(s, form.params).value;
      && (IsSet(First(form.params, "per_page")) ==> count == env.parseInt(First(form.params, "per_page").value))
      && (!IsSet(First(form.params, "per_page")) && SourceCount(source).Some? ==> count == SourceCount(source))
      && (!IsSet(First(form.params, "per_page")) && SourceCount(source).None? ==> count == Some(env.pageSize))
    // sort: the request's, else the source's, else empty
    ensures r.status == Done ==>
      var sort := r.store.views[newId].config.sortOrder;
      var source := DerivationSource(s, form.params).value;
      && (ListOf(form.params, "sort") != [] ==> sort == Some(form.params["sort"]))
      && (ListOf(form.params, "sort") == [] && source.Some? && source.value.config.sortOrder.Some? ==> sort == source.value.config.sortOrder)
      && (ListOf(form.params, "sort") == [] && (source.None? || source.value.config.sortOrder.None?) ==> sort == Some([]))
    // filters: the request's, else empty when removed or underived, else the source's
    ensures r.status == Done ==>
      var filters := r.store.views[newId].config.filterParams;
      var source := DerivationSource(s, form.params).value;
      var requested := form.params.Keys - env.nonFilterParams - {"view"};
      && (requested != {} ==> filters == Some(RequestFilters(form.params, env.nonFilterParams)))
      && (requested == {} && (source.None? || IsSet(First(form.params, "all_filters_removed"))) ==> filters == Some(map[]))
      && (requested == {} && source.Some? && !IsSet(First(form.params, "all_filters_removed")) ==> filters == source.value.config.filterParams)
    // table layout: only the view's own table class
    ensures r.status == Done ==>
      var layouts := r.store.views[newId].config.tableConfig;
      var source := DerivationSource(s, form.params).value;
      var table := env.tableClassOf(form.view);
      && layouts.Some?
      && (!IsSet(table) ==> layouts.value == map[])
      && (IsSet(table) ==> layouts.value.Keys <= {table.value})
      && (IsSet(table) && (source.None? || IsSet(First(form.params, "table_changes_pending"))) ==>
            layouts.value == map[table.value := env.tableConfigOf(user.id, table.value)])
      && (IsSet(table) && source.Some? && !IsSet(First(form.params, "table_changes_pending")) ==>
            var inherited := source.value.config.tableConfig;
            if inherited.Some? && table.value in inherited.value && Truthy(inherited.value[table.value])
            then layouts.value == map[table.value := inherited.value[table.value]]
            else layouts.value == map[])
  {
    match Attempt(s, user, form, env)
    case Early(e) => Reply(s, Failed(e))
    case Late(e, bare) => Reply(s, Failed(e))
    case Built(record) => Reply(s.(views := s.views[newId := record]), Done)
  }

  /** The two versions agree except where the written one leaves a bare record. */
  lemma CreateAgreesWithAsWritten(s: Store, user: User, form: CreateForm, env: Env, newId: Id)
    requires Parsed(form.params)
    requires newId !in s.views
    ensures CreateAsWritten(s, user, form, env, newId).status == Create(s, user, form, env, newId).status
    ensures CreateAsWritten(s, user, form, env, newId).status == Done ==>
      CreateAsWritten(s, user, form, env, newId) == Create(s, user, form, env, newId)
  {
  }

  /** A non-numeric `per_page` on a fresh name: the written version reports
      the failure yet keeps a saved view with an empty configuration; the
      atomic version adds nothing. */
  lemma BadPageSizeLeavesBareRecord(env: Env)
    requires env.resolves("dcim:device_list")
    requires env.parseInt("abc") == None
    ensures var s := Store(map[], []);
      var form := CreateForm("My Devices", "dcim:device_list", None, map["per_page" := ["abc"]]);
      && CreateAsWritten(s, User("alice", {}), form, env, "sv1") ==
           Reply(Store(map["sv1" := SavedView("My Devices", "dcim:device_list", "alice", false, false, EmptyConfig)], []),
                 Failed(BadInteger))
      && Create(s, User("alice", {}), form, env, "sv1") == Reply(s, Failed(BadInteger))
  {
    var form := CreateForm("My Devices", "dcim:device_list", None, map["per_page" := ["abc"]]);
    assert First(form.params, "saved_view") == None;
    assert !Taken(map[], "alice", "dcim:device_list", "My Devices");
  }

  /** A record that fails validation: the written version catches the error
      and returns normally, so the bare record stays whether or not requests
      run in a database transaction; the atomic version adds nothing. */
  lemma RejectedRecordLeavesBareRecord(env: Env)
    requires env.resolves("dcim:device_list")
    requires forall sv :: !env.isValid(sv)
    ensures var s := Store(map[], []);
      var form := CreateForm("My Devices", "dcim:device_list", Some("on"), map[]);
      && CreateAsWritten(s, User("alice", {}), form, env, "sv1") ==
           Reply(Store(map["sv1" := SavedView("My Devices", "dcim:device_list", "alice", true, false, EmptyConfig)], []),
                 Failed(Invalid))
      && Create(s, User("alice", {}), form, env, "sv1") == Reply(s, Failed(Invalid))
  {
    var form := CreateForm("My Devices", "dcim:device_list", Some("on"), map[]);
    assert First(form.params, "saved_view") == None;
    assert !Taken(map[], "alice", "dcim:device_list", "My Devices");
  }

  /** A successful create keeps the store consistent. */
  lemma CreatePreservesValid(s: Store, user: User, form: CreateForm, env: Env, newId: Id)
    requires Parsed(form.params)
    requires newId !in s.views
    requires Valid(s)
    ensures Valid(Create(s, user, form, env, newId).store)
  {
    var r := Create(s, user, form, env, newId);
    if r.status == Done {
      var views := r.store.views;
      forall a, b | a in views && b in views && a != b
        ensures !(views[a].owner == views[b].owner && views[a].view == views[b].view && views[a].name == views[b].name)
      {
        if a == newId || b == newId {
          var other := if a == newId then b else a;
          assert other in s.views;
          assert !(s.views[other].owner == user.id && s.views[other].view == form.view && s.views[other].name == form.name);
        }
      }
    }
  }
}

=== FILE: defaults.dfy ===
/** `set_default`: make a saved view the requesting user's default for its
    list view, replacing whatever default that user had there. */
module Defaults {
  import opened Records
  import opened Associations
  import opened Invariants
  import opened Visibility

  /** Delete the user's rows for `sv.view`, then add one row pointing at `sv`.
      No permission is consulted: any user may pick any existing saved view. */
  function SetDefault(s: Store, user: User, id: Id): (r: Reply)
    ensures id !in s.views ==> r == Reply(s, Failed(NotFound))
    ensures id in s.views ==>
      var pair := ForPair(user.id, s.views[id].view);
      && r.status == Done
      && r.store.views == s.views
      && Select(r.store.assocs, pair, true) == [Assoc(user.id, s.views[id].view, id)]
      && Select(r.store.assocs, pair, false) == Select(s.assocs, pair, false)
  {
    if id !in s.views then Reply(s, Failed(NotFound))
    else
      var pair := ForPair(user.id, s.views[id].view);
      var row := Assoc(user.id, s.views[id].view, id);
      var kept := Select(s.assocs, pair, false);
      SelectAppend(kept, [row], pair, true);
      SelectAppend(kept, [row], pair, false);
      SelectComplement(s.assocs, pair, true);
      SelectIdempotent(s.assocs, pair, false);
      SelectSingle(row, pair, true);
      SelectSingle(row, pair, false);
      Reply(Store(s.views, kept + [row]), Done)
  }

  /** Setting the same default twice leaves the store as setting it once. */
  lemma SetDefaultIdempotent(s: Store, user: User, id: Id)
    ensures SetDefault(SetDefault(s, user, id).store, user, id) == SetDefault(s, user, id)
  {
    if id in s.views {
      var pair := ForPair(user.id, s.views[id].view);
      var row := Assoc(user.id, s.views[id].view, id);
      var once := SetDefault(s, user, id).store.assocs;
      assert once == Select(s.assocs, pair, false) + [row];
      SelectAppend(Select(s.assocs, pair, false), [row], pair, false);
      SelectIdempotent(s.assocs, pair, false);
      SelectSingle(row, pair, false);
    }
  }

  /** `set_default` keeps the store consistent. */
  lemma SetDefaultPreservesValid(s: Store, user: User, id: Id)
    requires Valid(s)
    ensures Valid(SetDefault(s, user, id).store)
  {
    if id in s.views {
      var pair := ForPair(user.id, s.views[id].view);
      var row := Assoc(user.id, s.views[id].view, id);
      var kept := Select(s.assocs, pair, false);
      var after := SetDefault(s, user, id).store;
      assert after.assocs == kept + [row];
      forall u, v
        ensures |Select(after.assocs, ForPair(u, v), true)| <= 1
      {
        if ForPair(u, v) != pair {
          SelectAppend(kept, [row], ForPair(u, v), true);
          SelectSingle(row, ForPair(u, v), true);
          SelectAfterDrop(s.assocs, pair, ForPair(u, v));
        }
      }
    }
  }

  /** `set_default` consults no permission and no visibility: a user may make
      even a saved view it cannot see its default. */
  lemma SetDefaultIgnoresVisibility(s: Store, user: User, id: Id, permitted: SavedView -> bool)
    requires id in s.views && id !in VisibleTo(s, user, permitted)
    ensures SetDefault(s, user, id).status == Done
    ensures Assoc(user.id, s.views[id].view, id) in SetDefault(s, user, id).store.assocs
  {
    var pair := ForPair(user.id, s.views[id].view);
    assert Assoc(user.id, s.views[id].view, id) in Select(SetDefault(s, user, id).store.assocs, pair, true);
  }
}

=== FILE: deletion.dfy ===
/** `destroy`: delete a saved view after confirmation, together with every
    default association pointing at it. */
module Deletion {
  import opened Records
  import opened Associations
  import opened Invariants

  /** The permission the written code consults. The saved-view model belongs
      to the `users` application, so no object permission can grant it; only
      an active superuser, for whom `has_perms` holds of every name, passes. */
  const DeletePermAsWritten := "extras.delete_savedview"

  /** A GET shows the confirmation form; a POST submits it, confirmed or not. */
  datatype DestroyRequest = ShowConfirmation | Submit(confirmed: bool)

  /** The deletion a caller holding `perm` (or owning the saved view) may make. */
  function DestroyGuardedBy(s: Store, id: Id, user: User, req: DestroyRequest, perm: string): (r: Reply)
    ensures id !in s.views ==> r == Reply(s, Failed(NotFound))
    ensures id in s.views && s.views[id].owner != user.id && !HasPerm(user, perm) ==>
      r == Reply(s, Failed(PermissionDenied))
    ensures r.status != Done ==> r.store == s
    ensures r.status == Done <==>
      id in s.views && (s.views[id].owner == user.id || HasPerm(user, perm)) && req == Submit(true)
    // an allowed GET or unconfirmed POST shows the confirmation page
    ensures r.status == AwaitingConfirmation <==>
      id in s.views && (s.views[id].owner == user.id || HasPerm(user, perm)) && req != Submit(true)
    ensures r.status == Failed(PermissionDenied) ==>
      id in s.views && s.views[id].owner != user.id && !HasPerm(user, perm)
    ensures r.status == Done ==>
      && r.store.views == s.views - {id}
      && (forall a :: a in r.store.assocs <==> a in s.assocs && a.savedView != id)
  {
    if id !in s.views then Reply(s, Failed(NotFound))
    else if s.views[id].owner != user.id && !HasPerm(user, perm) then Reply(s, Failed(PermissionDenied))
    else if req != Submit(true) then Reply(s, AwaitingConfirmation)
    else Reply(Store(s.views - {id}, Select(s.assocs, ForView(id), false)), Done)
  }

  /** `destroy` as written, gated on `extras.delete_savedview`. */
  function DestroyAsWritten(s: Store, id: Id, user: User, req: DestroyRequest): (r: Reply)
    ensures id in s.views && s.views[id].owner != user.id && !HasPerm(user, DeletePermAsWritten) ==>
      r == Reply(s, Failed(PermissionDenied))
    ensures r.status == Done ==> r.store.views == s.views - {id}
  {
    DestroyGuardedBy(s, id, user, req, DeletePermAsWritten)
  }

  /** `destroy` gated on the saved-view model's own delete permission. */
  function Destroy(s: Store, id: Id, user: User, req: DestroyRequest): (r: Reply)
    ensures id !in s.views ==> r == Reply(s, Failed(NotFound))
    ensures id in s.views && s.views[id].owner != user.id && !HasPerm(user, DeletePerm) ==>
      r == Reply(s, Failed(PermissionDenied))
    ensures r.status != Done ==> r.store == s
    ensures r.status == Done <==>
      id in s.views && (s.views[id].owner == user.id || HasPerm(user, DeletePerm)) && req == Submit(true)
    // an allowed GET or unconfirmed POST shows the confirmation page
    ensures r.status == AwaitingConfirmation <==>
      id in s.views && (s.views[id].owner == user.id || HasPerm(user, DeletePerm)) && req != Submit(true)
    ensures r.status == Failed(PermissionDenied) ==>
      id in s.views && s.views[id].owner != user.id && !HasPerm(user, DeletePerm)
    ensures r.status == Done ==>
      && r.store.views == s.views - {id}
      && (forall a :: a in r.store.assocs ==> a.savedView != id)
      && Select(r.store.assocs, ForView(id), false) == Select(s.assocs, ForView(id), false)
  {
    var r := DestroyGuardedBy(s, id, user, req, DeletePerm);
    if r.status == Done then
      SelectIdempotent(s.assocs, ForView(id), false);
      r
    else r
  }

  /** A non-owner holding the saved-view delete permission is refused by the
      written code and allowed by the intended one. */
  lemma DeletePermissionHolderRefused()
    ensures var s := Store(map["sv1" := SavedView("My Devices", "dcim:device_list", "alice", true, false, EmptyConfig)], []);
      var bob := User("bob", {DeletePerm});
      && DestroyAsWritten(s, "sv1", bob, Submit(true)) == Reply(s, Failed(PermissionDenied))
      && Destroy(s, "sv1", bob, Submit(true)) == Reply(Store(map[], []), Done)
  {
    var s := Store(map["sv1" := SavedView("My Devices", "dcim:device_list", "alice", true, false, EmptyConfig)], []);
    assert DeletePermAsWritten != DeletePerm;
    assert s.views - {"sv1"} == map[];
  }

  /** A deletion keeps the store consistent: no association is left dangling. */
  lemma DestroyPreservesValid(s: Store, id: Id, user: User, req: DestroyRequest)
    requires Valid(s)
    ensures Valid(Destroy(s, id, user, req).store)
  {
    var after := Destroy(s, id, user, req).store;
    if Destroy(s, id, user, req).status == Done {
      assert after.assocs == Select(s.assocs, ForView(id), false);
      forall u, v
        ensures |Select(after.assocs, ForPair(u, v), true)| <= 1
      {
        SelectAfterDrop(s.assocs, ForView(id), ForPair(u, v));
      }
    }
  }
}

=== FILE: invariants.dfy ===
/** The consistency the store keeps between requests: unique saved-view names
    per owner and view, at most one default per user and view, and no
    association pointing at a missing or mismatched saved view. */
module Invariants {
  import opened Records
  import opened Associations

  /** `(owner, view, name)` identifies at most one saved view. */
  ghost predicate NamesUnique(views: map<Id, SavedView>) {
    forall a, b :: a in views && b in views && a != b ==>
      !(views[a].owner == views[b].owner && views[a].view == views[b].view && views[a].name == views[b].name)
  }

  /** The owner already has a saved view of this name for this view. */
  predicate Taken(views: map<Id, SavedView>, owner: UserId, view: string, name: string) {
    exists id :: id in views && views[id].owner == owner && views[id].view == view && views[id].name == name
  }

  /** At most one association row per `(user, view_name)` pair. */
  ghost predicate AssocsUnique(rows: seq<Assoc>) {
    forall u, v :: |Select(rows, ForPair(u, v), true)| <= 1
  }

  /** Every association names an existing saved view of the same view. */
  ghost predicate AssocsResolve(s: Store) {
    forall a :: a in s.assocs ==> a.savedView in s.views && s.views[a.savedView].view == a.viewName
  }

  ghost predicate Valid(s: Store) {
    NamesUnique(s.views) && AssocsUnique(s.assocs) && AssocsResolve(s)
  }
}

=== FILE: preferences.dfy ===
/** `UserConfigView.post`: delete the preferences the user ticked. */
module Preferences {
  import opened Values

  /** Remove every selected top-level preference key that is present; keys
      not present are skipped and every other preference is kept. */
  method ClearPreferences(data: map<string, Json>, selected: seq<string>) returns (r: map<string, Json>)
    ensures r.Keys == data.Keys - (set i | 0 <= i < |selected| :: selected[i])
    ensures forall k :: k in r ==> r[k] == data[k]
  {
    r := data;
    var n := 0;
    while n < |selected|
      invariant n <= |selected|
      invariant r.Keys == data.Keys - (set i | 0 <= i < n :: selected[i])
      invariant forall k :: k in r ==> r[k] == data[k]
    {
      var key := selected[n];
      if key in r {
        r := r - {key};
      }
      n := n + 1;
    }
  }
}

=== FILE: records.dfy ===
/** The entities of the saved-view feature: users, saved views with their
    configuration document, per-user default associations, the store holding
    both, and the collaborators the views consult. */
module Records {
  import opened Values

  /** Primary key of a saved view. */
  type Id = string

  /** Primary key of a user. */
  type UserId = string

  /** The requesting (authenticated) user: an identity and the permission
      names `has_perms` grants it. */
  datatype User = User(id: UserId, perms: set<string>)

  predicate HasPerm(u: User, perm: string) {
    perm in u.perms
  }

  const ViewPerm := "users.view_savedview"
  const ChangePerm := "users.change_savedview"
  const DeletePerm := "users.delete_savedview"

  /** The recognised keys of a saved view's `config` document; `None` is a
      key that is absent. */
  datatype Config = Config(
    paginationCount: Option<int>,
    sortOrder: Option<seq<string>>,
    filterParams: Option<map<string, Param>>,
    tableConfig: Option<map<string, Json>>)

  /** The configuration a freshly inserted saved view starts with (`{}`). */
  const EmptyConfig := Config(None, None, None, None)

  datatype SavedView = SavedView(
    name: string,
    view: string,
    owner: UserId,
    isShared: bool,
    isGlobalDefault: bool,
    config: Config)

  /** One `UserSavedViewAssociation` row: `user`'s default saved view for the
      list view `viewName`. */
  datatype Assoc = Assoc(user: UserId, viewName: string, savedView: Id)

  datatype Store = Store(views: map<Id, SavedView>, assocs: seq<Assoc>)

  datatype Failure =
    | NotFound          // no saved view with the requested primary key: the uncaught
                        // `DoesNotExist` of a lookup, or the mixin's not-found response
    | PermissionDenied  // neither the owner nor holding the required permission
    | InvalidView       // the view name does not reverse to a URL
    | DuplicateName     // the owner already has a saved view of that name for that view
    | BadFlag           // the boolean column rejected the raw `is_shared` value
    | BadInteger        // `int()` rejected the page size
    | MissingKey        // the derivation source has no `filter_params`
    | Invalid           // `validated_save` rejected the record

  datatype Status = Done | AwaitingConfirmation | Failed(failure: Failure)

  /** The store after a request, and how the request ended. */
  datatype Reply = Reply(store: Store, status: Status)

  /** The collaborators the views consult and this model does not implement. */
  datatype Env = Env(
    nonFilterParams: set<string>,                // the list view's `non_filter_params`
    tableClassOf: string -> Option<string>,      // `get_table_class_string_from_view_name`
    resolves: string -> bool,                    // `reverse(view_name)` succeeds
    pageSize: int,                               // `get_settings_or_config("PAGINATE_COUNT")`
    parseInt: string -> Option<int>,             // `int()`, `None` where it raises
    tableConfigOf: (UserId, string) -> Json,     // `user.get_config("tables.<table class>")`
    isValid: SavedView -> bool)                  // the model validation of `validated_save`
}

=== FILE: values.dfy ===
/** Plain values the saved-view model is built from: optional and fallible
    results, JSON documents, filter parameter values, and query strings as the
    web framework hands them to the views. */
module Values {

  datatype Option<+T> = None | Some(value: T)

  datatype Result<+T, +E> = Ok(value: T) | Err(error: E)

  /** A JSON document, as a saved view's configuration and a user's
      preferences store it. */
  datatype Json =
    | JNull
    | JBool(b: bool)
    | JInt(i: int)
    | JStr(s: string)
    | JList(items: seq<Json>)
    | JObject(fields: map<string, Json>)

  /** Python truthiness of a JSON value: null, false, zero and empty
      containers are false. */
  predicate Truthy(j: Json) {
    match j
    case JNull => false
    case JBool(b) => b
    case JInt(i) => i != 0
    case JStr(s) => s != ""
    case JList(items) => items != []
    case JObject(fields) => fields != map[]
  }

  /** A filter value: a single string (the search box `q` and the other
      single-valued keys) or the ordered list of values of a multi-valued key. */
  datatype Param = One(value: string) | Many(values: seq<string>)

  /** A parsed query string: each key with the ordered values given for it. */
  type Query = map<string, seq<string>>

  /** Both the request's query dictionary and `parse_qs` only ever produce
      keys that carry at least one value. */
  predicate Parsed(q: Query) {
    forall k :: k in q ==> q[k] != []
  }

  /** `q.get(k)`: the LAST value given for `k`, if any. */
  function Last(q: Query, k: string): Option<string> {
    if k in q && q[k] != [] then Some(q[k][|q[k]| - 1]) else None
  }

  /** `q[k][0]`: the FIRST value given for `k`, if any. */
  function First(q: Query, k: string): Option<string> {
    if k in q && q[k] != [] then Some(q[k][0]) else None
  }

  /** `q.getlist(k, [])`. */
  function ListOf(q: Query, k: string): seq<string> {
    if k in q then q[k] else []
  }

  /** Python truthiness of an optional string: present and not empty. */
  predicate IsSet(v: Option<string>) {
    v.Some? && v.value != ""
  }
}

=== FILE: visibility.dfy ===
/** Which saved views a user may see (`alter_queryset`) and the list action
    that shows them (`list`). */
module Visibility {
  import opened Values
  import opened Records

  /** A holder of the view permission sees the saved views its object
      permissions admit (`permitted`, the `restrict(user, "view")` step); anyone
      else sees the shared saved views together with its own. */
  function VisibleTo(s: Store, user: User, permitted: SavedView -> bool): (r: set<Id>)
    ensures r <= s.views.Keys
    ensures HasPerm(user, ViewPerm) ==>
      forall id :: id in s.views ==> (id in r <==> permitted(s.views[id]))
    ensures !HasPerm(user, ViewPerm) ==>
      forall id :: id in s.views ==> (id in r <==> s.views[id].isShared || s.views[id].owner == user.id)
  {
    if HasPerm(user, ViewPerm) then
      set id | id in s.views && permitted(s.views[id])
    else
      var shared := set id | id in s.views && s.views[id].isShared;
      var owned := set id | id in s.views && s.views[id].owner == user.id;
      shared + owned
  }

  /** The list page is refused without the view permission, so it only ever
      shows the permission holder's view of the store. */
  function ListViews(s: Store, user: User, permitted: SavedView -> bool): (r: Result<set<Id>, Failure>)
    ensures r.Err? <==> !HasPerm(user, ViewPerm)
    ensures r.Err? ==> r.error == PermissionDenied
    ensures r.Ok? ==> forall id :: id in r.value <==> id in s.views && permitted(s.views[id])
  {
    if !HasPerm(user, ViewPerm) then Err(PermissionDenied)
    else Ok(VisibleTo(s, user, permitted))
  }

  /** Marking a saved view shared makes it visible to every user, whatever
      the user's permissions admit otherwise, as long as it lacks the view
      permission. */
  lemma SharingMakesVisible(s: Store, id: Id, user: User, permitted: SavedView -> bool)
    requires id in s.views
    requires !HasPerm(user, ViewPerm)
    ensures id in VisibleTo(s.(views := s.views[id := s.views[id].(isShared := true)]), user, permitted)
  {
  }

  /** Without the view permission, an unshared saved view is visible to its
      owner and to nobody else. */
  lemma UnsharedVisibleOnlyToOwner(s: Store, id: Id, user: User, permitted: SavedView -> bool)
    requires id in s.views && !s.views[id].isShared
    requires !HasPerm(user, ViewPerm)
    ensures id in VisibleTo(s, user, permitted) <==> s.views[id].owner == user.id
  {
  }

  /** Visibility without the view permission depends only on who owns which
      saved view and which are shared. */
  lemma VisibilityDependsOnSharingAndOwnership(s: Store, t: Store, user: User, p: SavedView -> bool, q: SavedView -> bool)
    requires s.views.Keys == t.views.Keys
    requires forall id :: id in s.views ==>
      s.views[id].isShared == t.views[id].isShared && s.views[id].owner == t.views[id].owner
    requires !HasPerm(user, ViewPerm)
    ensures VisibleTo(s, user, p) == VisibleTo(t, user, q)
  {
  }
}
